=== FILE: README.md ===
# Steam networking-sockets transport for Unity Netcode — a Dafny model

`SteamNetworkingSocketsTransport` adapts Steamworks' peer-to-peer sockets to
Netcode for GameObjects' `NetworkTransport`. It keeps:

- a connection registry (`connectionMapping`) from 64-bit client ids to a
  record holding the peer's Steam id and its connection handle;
- a pending-disconnect-reason store;
- a FIFO queue of connection-status notifications, filled by a Steam callback;
- the server/client role, the `client` record and `LastDisconnectReason`.

`PollEvent` drains the queue in arrival order and returns at the first Connect
or Disconnect. Only when the queue is empty does it look for one received
message. It strips that message's trailing delivery byte and returns it as
Data. `Send` appends that byte, picks a send flag, and closes the connection
when the socket layer reports it gone.

This project models that state machine with immutable values and pure
functions. The transport is a `Transport` record. Each Steamworks call becomes
one of two things:

- an oracle parameter: the accept result, the send result, the message waiting
  on a handle, the handle `ConnectP2P` returns, the listen-socket handle, the
  real-time status, or whether a `NetworkManager` exists;
- an entry in the `SocketCall` list an operation returns: accept, close with
  reason, send with buffer and flag, connect, and open or close the listen
  socket.

Modules:

- `SteamTypes` (types.dfy): fixed-width integers, `EResult`,
  `ESteamNetworkingConnectionState` with its C# names, `NetworkDelivery` with
  its ordinals, the notification and event records, and `SocketCall`.
- `Framing` (framing.dfy): send flags and the one-byte tag framing.
- `Registry` (registry.dfy): the state record, its invariant `Valid`, the
  callback, pending reasons, both disconnects and `GetCurrentRtt`.
- `PollEvents` (poll.dfy): notification handling, the drain, the receive pass
  and `PollEvent`. The drain and the receive pass each have a recursive
  definition and a loop version proved equal to it.
- `Sending` (send.dfy): `Send`.
- `Lifecycle` (lifecycle.dfy): `StartServer`, `StartClient`, `Shutdown` and
  `CloseP2PSessions`.
- `Scenarios` (scenarios.dfy): multi-step runs.

**Object identity.** `StartClient` stores the `client` object itself in the
registry. A later Connected notification updates that entry's handle in place,
so `client.connection` changes too. `ClientRecord.shared` models this sharing:
handle updates reach a shared client record. Removing the entry unshares it,
and the client keeps its old handle. The helpers `MirrorUpdate` and `Unshare`
implement this. The contracts of `PollEvents.OnConnected`, `Registry.RemoveEntry`,
`PollEvents.OnClosed` and `Registry.DisconnectRemoteClient` state it: only the
removed id's entry loses its sharing, and a client record under any other id
keeps it.

**Behaviour of the code that is easy to misread:**

- A Connected notification overwrites an existing entry's handle whether or
  not the handle was pending.
- `DisconnectLocalClient` does not touch pending reasons. It closes the
  client's own handle with an empty reason, then removes whatever entry is
  registered under the client's id.
- `Shutdown` does not clear the status-change queue, so notifications still
  queued are seen by the next poll after a restart.
- When `StartClient` fails on a duplicate key, `ConnectP2P` has already been
  called, and the model records that call. Nothing closes that connection.

## Model

| member | source | states |
|---|---|---|
| Framing.SendFlag | Runtime/SteamNetworkingSocketsTransport.cs:287-292 | the flag has the reliable bit exactly for Reliable, ReliableSequenced and ReliableFragmentedSequenced, and the no-Nagle bit exactly for ReliableSequenced and UnreliableSequenced |
| Framing.Encode | Runtime/SteamNetworkingSocketsTransport.cs:279-282 | the outgoing buffer has count+1 bytes: the payload, then the delivery ordinal |
| Framing.Decode | Runtime/SteamNetworkingSocketsTransport.cs:244-247 | a received message of size ≥ 1 yields all but its last byte; an empty one raises OverflowException |
| Framing.DecodeEncode | Runtime/SteamNetworkingSocketsTransport.cs:279-282 | decoding an encoded buffer gives back the payload, for every length and delivery mode |
| Framing.EncodeInjective | Runtime/SteamNetworkingSocketsTransport.cs:279-282 | two sends with different payloads or delivery modes never produce the same buffer |
| Registry.Initial | Runtime/SteamNetworkingSocketsTransport.cs:32-42 | a new transport is not a server, has no client, no last disconnect reason and no status-change subscription, and has an empty registry, store and queue |
| Registry.RemoveEntry | Runtime/SteamNetworkingSocketsTransport.cs:217 | removing an entry deletes exactly that key and keeps the other entries; the client record survives with the same id and handle, no longer shared if it was that entry and still shared otherwise; the invariant is kept |
| Registry.Enqueue | Runtime/SteamNetworkingSocketsTransport.cs:440-442 | the notification callback appends at the tail and changes nothing else |
| Registry.SetPendingDisconnectReason | Runtime/SteamNetworkingSocketsTransport.cs:67-70 | a valid id with a non-empty reason sets that id's reason and leaves the others; otherwise nothing changes |
| Registry.DisconnectLocalClient | Runtime/SteamNetworkingSocketsTransport.cs:72-87 | with a client: closes its handle with "" and removes its id from the registry; afterwards there is no client, and nothing else changes |
| Registry.DisconnectRemoteClient | Runtime/SteamNetworkingSocketsTransport.cs:89-109 | a registered id is closed with its pending reason (default "Disconnected"); the id leaves both maps; an unregistered id only loses its pending reason; the client record keeps its id and handle, and loses its sharing only if it was the removed entry |
| Registry.ToULong | Runtime/SteamNetworkingSocketsTransport.cs:123 | the unchecked int-to-ulong cast agrees with the ping modulo 2^64 and is the identity on non-negative pings |
| Registry.GetCurrentRtt | Runtime/SteamNetworkingSocketsTransport.cs:111-127 | 0 for an unknown id or a failed status query, otherwise the ping cast to ulong |
| Registry.ReasonConsumedOnce | Runtime/SteamNetworkingSocketsTransport.cs:67-109 | a reason set before a disconnect is used by that disconnect; a second disconnect of the same id makes no call and changes nothing |
| PollEvents.OnConnecting | Runtime/SteamNetworkingSocketsTransport.cs:142-182 | only a server calls accept; the registry gains the peer only when accept is OK and the peer is new; existing entries are untouched |
| PollEvents.OnConnected | Runtime/SteamNetworkingSocketsTransport.cs:183-202 | the peer is mapped to the notification's handle, inserted if absent and updated in place if present; other entries are kept; a client record shared with the updated entry now carries the new handle, and any other client record is unchanged |
| PollEvents.ClosedReason | Runtime/SteamNetworkingSocketsTransport.cs:209-211 | the end-debug text if it is non-empty, else "Connection closed: " followed by the state's name |
| PollEvents.OnClosed | Runtime/SteamNetworkingSocketsTransport.cs:204-218 | the peer's entry is removed and the other entries are kept; only a client records the closing reason; the client record survives with the same id and handle, and loses its sharing only if it was the closed peer's entry |
| PollEvents.Handle | Runtime/SteamNetworkingSocketsTransport.cs:142-224 | a notification yields an event exactly when its state is Connected, ClosedByPeer or ProblemDetectedLocally, and the event names its peer |
| PollEvents.DrainFacts | Runtime/SteamNetworkingSocketsTransport.cs:138-225 | the drain stops at a Connect/Disconnect with a shorter queue or empties the queue; a suffix of the queue remains; role and store are kept; the invariant holds |
| PollEvents.DrainStopsAtFirstVisible | Runtime/SteamNetworkingSocketsTransport.cs:138-225 | FIFO: the drain returns the event of the first visible notification and leaves exactly the later notifications queued |
| PollEvents.PollStopsAtFirstVisible | Runtime/SteamNetworkingSocketsTransport.cs:135-225 | FIFO at the poll: PollEvent returns Connect or Disconnect, with no payload, for the first visible notification's peer, and leaves exactly the later notifications queued |
| PollEvents.DrainWithoutVisible | Runtime/SteamNetworkingSocketsTransport.cs:138-225 | with no visible notification the queue empties with no event, and a client's state is otherwise unchanged |
| PollEvents.DataPass | Runtime/SteamNetworkingSocketsTransport.cs:229-258 | Nothing, with id 0 and no payload, exactly when no visited connection has a message; Data comes from the first connection that has one, tag stripped |
| PollEvents.DataPassCoversRegistry | Runtime/SteamNetworkingSocketsTransport.cs:229-253 | when the order enumerates the registry: Nothing iff no registered connection has a message, and Data only for a registered id that had one |
| PollEvents.PollEvent | Runtime/SteamNetworkingSocketsTransport.cs:135-259 | at most one event per call; Connect/Disconnect carry no payload and leave a shorter queue; Data and Nothing only after the queue is empty; what a Data or exception result means is stated by PollEvents.PollDataFromFirstReady |
| PollEvents.PollDataFromFirstReady | Runtime/SteamNetworkingSocketsTransport.cs:229-251 | a Data result is the message of the first connection in the enumeration that has one, after the drain, with its tag byte stripped and the id of that entry; an exception comes only from that first message being empty |
| PollEvents.PollConnected | Runtime/SteamNetworkingSocketsTransport.cs:183-202 | a Connected notification at the head returns Connect for that peer and maps it to the notification's handle |
| PollEvents.PollClosed | Runtime/SteamNetworkingSocketsTransport.cs:204-218 | a closing notification at the head returns Disconnect and removes the peer; a client records the end-debug text or the state message |
| PollEvents.PollConnecting | Runtime/SteamNetworkingSocketsTransport.cs:142-182 | a Connecting notification at the head produces no event; polling continues from a state that registers the peer only when server, accept OK and new |
| PollEvents.ConnectedTwice | Runtime/SteamNetworkingSocketsTransport.cs:191-200 | two Connected notifications for one peer leave a single entry carrying the later handle |
| PollEvents.ReceiveLoop | Runtime/SteamNetworkingSocketsTransport.cs:229-258 | the foreach over the registry computes the receive pass |
| PollEvents.DrainLoop | Runtime/SteamNetworkingSocketsTransport.cs:138-225 | the while loop over the queue computes the drain |
| Sending.Send | Runtime/SteamNetworkingSocketsTransport.cs:261-329 | changes nothing but the pending store and the last disconnect reason; a null array, id 0 without a client, or an unregistered id makes no call and changes nothing; otherwise the first call sends payload+tag with the delivery's flag; a NoConnection/InvalidParam answer consumes the pending reason (default "Disconnected"), records it only for a client, and closes the connection with it; other answers change nothing, and without a network manager each of them except OK raises NullReferenceException |
| Sending.SendThenReceive | Runtime/SteamNetworkingSocketsTransport.cs:279-282 | a buffer sent by one side and picked up by the other side's receive pass comes out as Data with exactly the sent bytes |
| Lifecycle.StartServer | Runtime/SteamNetworkingSocketsTransport.cs:391-414 | clears the store and the last reason, takes the server role, subscribes, opens the listen socket and returns true; registry, client and queue are kept |
| Lifecycle.StartClient | Runtime/SteamNetworkingSocketsTransport.cs:351-389 | returns true exactly when the socket layer returns a handle and the target is not yet registered; then the shared client record is registered under the target; on failure the client is dropped and the registry is unchanged |
| Lifecycle.CloseAll | Runtime/SteamNetworkingSocketsTransport.cs:418-425 | each close call closes a registered connection with "Server shutdown", and every enumerated registered connection is closed |
| Lifecycle.CloseAllInOrder | Runtime/SteamNetworkingSocketsTransport.cs:418-425 | over a registry enumeration, the close calls are one per entry in enumeration order |
| Lifecycle.CloseP2PSessions | Runtime/SteamNetworkingSocketsTransport.cs:416-438 | closes the registered connections, empties the registry and store, drops the client and unsubscribes; role, queue and last reason are kept |
| Lifecycle.Shutdown | Runtime/SteamNetworkingSocketsTransport.cs:331-349 | a server first closes its listen socket; the role becomes non-server; the teardown leaves registry, store and client empty; queue, last reason and listen-socket handle are kept |
| Scenarios.ServerConnectSendDisconnect | Runtime/SteamNetworkingSocketsTransport.cs:89-329 | a server accepts and connects a peer, sends 3 reliable bytes with tag 2 on its handle, then disconnects it with "Disconnected" and unregisters it |
| Scenarios.ClientRecordFollowsHandleUpdate | Runtime/SteamNetworkingSocketsTransport.cs:191-200 | after StartClient and a Connected update of its entry, DisconnectLocalClient closes the updated handle |

## Left out

- Steamworks itself: accepting, sending, receiving, connecting, closing,
  listen sockets, relay initialisation and real-time status. These are oracle
  parameters or recorded `SocketCall`s, not implementations.
- `InitRelayNetworkAccess` is not recorded as a call. If it or `ConnectP2P`
  raises, `StartClient` receives `None`. `ConnectP2P` is recorded only when it
  returned a handle.
- `CSteamID.IsValid` belongs to Steamworks.NET. `SetPendingDisconnectReason`
  receives its answer as the boolean `idIsValid`.
- Marshalling and pinning (`GCHandle`, `Marshal.Copy`, `PtrToStructure`) and
  message `Release`: these are foreign memory operations.
- Logging, the `NetworkManager.Singleton?.LogLevel` checks, `IsSupported`,
  `Initialize` and `receiveTime`: these are diagnostics, capability probing
  and floating-point clock reads. Send's unguarded read of
  `NetworkManager.Singleton.LogLevel` (:318-319) is modelled, because it can raise.
- The `options` array: it is passed to Steamworks unread.
- The callback runs asynchronously on Steam's dispatch; the model treats it
  as a synchronous append.
- The 0.1-second coroutine delay before `CloseP2PSessions` in `Shutdown`:
  teardown is immediate.
- The `#if UNITY_SERVER` branches: they repeat the same logic on
  game-server entry points.
- The `else` at lines 172-175 re-tests `isServer` right after testing it. It
  cannot be reached in a sequential model.
- `NetworkDelivery` values outside its five enumerators: for those,
  `Convert.ToByte` could overflow.
- Dictionary enumeration order is unspecified. It enters as the `order`
  parameter of `PollEvent` and `CloseP2PSessions`.
- PollEvents.DataPass: its contract speaks of the connections listed in
  `order`, and ids not in `order` are not visited. The statement about the
  whole registry is `PollEvents.DataPassCoversRegistry`, under the assumption
  that `order` enumerates the registry.
- PollEvents.PollEvent: its Nothing case is likewise stated relative to
  `order`.
- Lifecycle.CloseP2PSessions: it promises closes only for the ids in `order`.
  With a real enumeration that is every entry; see `Lifecycle.CloseAllInOrder`.
- Whether the registry keys equal the open connections cannot be stated:
  whether a connection is open is Steamworks state. The model proves its own
  invariant `Registry.Valid` instead: every entry is keyed by its own Steam id,
  and a shared client record is the entry under its id. Every operation keeps
  it.

=== FILE: framing.dfy ===
/**
 The wire framing of the transport: every outgoing buffer is the payload
 followed by one byte holding the delivery mode's ordinal, and the receiver
 strips that last byte again. The delivery mode also selects the socket
 layer's send flag.
 */
module Framing {
  import opened SteamTypes

  /** The `k_nSteamNetworkingSend_*` constants the transport uses. */
  const SEND_UNRELIABLE: int := 0
  const SEND_NO_NAGLE: int := 1
  const SEND_UNRELIABLE_NO_NAGLE: int := 1
  const SEND_RELIABLE: int := 8
  const SEND_RELIABLE_NO_NAGLE: int := 9

  /** The send flag for a delivery mode: the reliable bit (8) exactly for the
      reliable modes, the no-Nagle bit (1) exactly for the two sequenced modes
      that must not be coalesced. */
  function SendFlag(d: NetworkDelivery): (f: int)
    ensures f in {SEND_UNRELIABLE, SEND_UNRELIABLE_NO_NAGLE, SEND_RELIABLE, SEND_RELIABLE_NO_NAGLE}
    ensures f >= SEND_RELIABLE <==> d.IsReliable()
    ensures f % 2 == SEND_NO_NAGLE <==> d.IsSequencedNoCoalesce()
  {
    match d
    case Reliable | ReliableFragmentedSequenced => SEND_RELIABLE
    case ReliableSequenced => SEND_RELIABLE_NO_NAGLE
    case UnreliableSequenced => SEND_UNRELIABLE_NO_NAGLE
    case _ => SEND_UNRELIABLE
  }

  /** The outgoing buffer: the payload, then the delivery ordinal as one trailing byte. */
  function Encode(payload: seq<Byte>, d: NetworkDelivery): (buf: seq<Byte>)
    ensures |buf| == |payload| + 1
    ensures buf[..|payload|] == payload
    ensures buf[|payload|] == Ordinal(d)
  {
    payload + [Ordinal(d)]
  }

  /** The receive side: a buffer of `m_cbSize` bytes becomes its first
      `m_cbSize - 1` bytes. An empty message makes `new byte[-1]` raise. */
  function Decode(msg: seq<Byte>): (r: Outcome<seq<Byte>>)
    ensures r.Returned? <==> |msg| >= 1
    ensures r.Returned? ==> |r.value| == |msg| - 1 && r.value + [msg[|msg| - 1]] == msg
    ensures r.Threw? ==> r.exception == "OverflowException"
  {
    if |msg| == 0 then Threw("OverflowException") else Returned(msg[..|msg| - 1])
  }

  /** Stripping the tag recovers exactly the payload that was sent, for every
      payload length and every delivery mode. */
  lemma DecodeEncode(payload: seq<Byte>, d: NetworkDelivery)
    ensures Decode(Encode(payload, d)) == Returned(payload)
  {

  }

  /** Distinct (payload, delivery) pairs never share a buffer: the tag byte
      identifies the delivery mode and the rest identifies the payload. */
  lemma EncodeInjective(p: seq<Byte>, d: NetworkDelivery, q: seq<Byte>, e: NetworkDelivery)
    requires Encode(p, d) == Encode(q, e)
    ensures p == q && d == e
  {

  }
}

=== FILE: lifecycle.dfy ===
/**
 Starting and stopping the transport: `StartServer`, `StartClient`,
 `Shutdown` and the teardown `CloseP2PSessions` it schedules.
 */
module Lifecycle {
  import opened SteamTypes
  import opened Registry

  /** A start operation's result: the new state, the boolean it returns, and
      the socket-layer calls it made. */
  datatype Started = Started(state: Transport, ok: bool, calls: seq<SocketCall>)

  /** `StartServer`: forget pending reasons and the last disconnect reason,
      take the server role, subscribe to status changes (once), and open the
      listen socket, whose handle the socket layer returns as `listen`. It
      always reports success; registry, client and queue are left as they are. */
  function StartServer(t: Transport, listen: ListenSocket): (r: Started)
    ensures r.ok
    ensures r.state.isServer && r.state.subscribed
    ensures r.state.pending == map[] && r.state.lastDisconnectReason.None?
    ensures r.state.listenSocket == listen && r.calls == [CreateListenSocketP2P]
    ensures r.state.registry == t.registry && r.state.client == t.client && r.state.queue == t.queue
    ensures Valid(t) ==> Valid(r.state)
  {
    Started(t.(isServer := true, pending := map[], lastDisconnectReason := None, subscribed := true, listenSocket := listen),
            true, [CreateListenSocketP2P])
  }

  /** `StartClient` towards `target` (the `ConnectToSteamID` setting).
      `connect` is the handle `ConnectP2P` returns, or None when the socket
      layer raised instead. On success the new client record is registered
      under the target and is shared with the registry; if the socket layer
      raised, or the target was already registered (`Dictionary.Add` throws),
      the client record is dropped and the result is false. */
  function StartClient(t: Transport, target: U64, connect: Option<ConnHandle>): (r: Started)
    ensures r.state.lastDisconnectReason.None? && r.state.subscribed
    ensures r.ok <==> connect.Some? && target !in t.registry
    ensures r.ok ==>
      && r.state.registry == t.registry[target := ConnectionData(target, connect.value)]
      && r.state.client == Some(ClientRecord(ConnectionData(target, connect.value), true))
    ensures !r.ok ==> r.state.client.None? && r.state.registry == t.registry
    ensures r.calls == (if connect.Some? then [ConnectP2P(target)] else [])
    ensures r.state.isServer == t.isServer && r.state.pending == t.pending && r.state.queue == t.queue
    ensures r.state.listenSocket == t.listenSocket
    ensures Valid(t) ==> Valid(r.state)
  {
    var t' := t.(lastDisconnectReason := None, subscribed := true);
    match connect
    case None => Started(t'.(client := None), false, [])
    case Some(h) =>
      if target in t.registry then Started(t'.(client := None), false, [ConnectP2P(target)])
      else
        var data := ConnectionData(target, h);
        Started(t'.(registry := t.registry[target := data], client := Some(ClientRecord(data, true))),
                true, [ConnectP2P(target)])
  }

  /** The close calls of the teardown: one per registered id in `order`
      (the dictionary's enumeration), each with the shutdown reason. */
  function CloseAll(registry: map<U64, ConnectionData>, order: seq<U64>): (calls: seq<SocketCall>)
    decreases |order|
    ensures |calls| <= |order|
    ensures forall c :: c in calls ==> exists k :: k in registry && c == CloseConnection(registry[k].connection, SHUTDOWN_REASON)
    ensures forall k :: k in order && k in registry ==> CloseConnection(registry[k].connection, SHUTDOWN_REASON) in calls
  {
    if |order| == 0 then []
    else
      var rest := CloseAll(registry, order[1..]);
      assert forall k :: k in order && k != order[0] ==> k in order[1..];
      if order[0] in registry then [CloseConnection(registry[order[0]].connection, SHUTDOWN_REASON)] + rest
      else rest
  }

  /** With a real enumeration of the registry, the teardown closes the
      registered connections one by one, in enumeration order. */
  lemma {:induction false} CloseAllInOrder(registry: map<U64, ConnectionData>, order: seq<U64>)
    requires forall i :: 0 <= i < |order| ==> order[i] in registry
    ensures CloseAll(registry, order) == seq(|order|, i requires 0 <= i < |order| => CloseConnection(registry[order[i]].connection, SHUTDOWN_REASON))
    decreases |order|
  {
    if |order| > 0 {
      CloseAllInOrder(registry, order[1..]);
    }
  }

  /** `CloseP2PSessions`: close every registered connection with the reason
      "Server shutdown", then clear the pending reasons and the registry, drop
      the client record and dispose of the status-change subscription. The
      queue is not cleared. */
  function CloseP2PSessions(t: Transport, order: seq<U64>): (r: After)
    ensures r.state.registry == map[] && r.state.pending == map[] && r.state.client.None? && !r.state.subscribed
    ensures forall k :: k in order && k in t.registry ==> CloseConnection(t.registry[k].connection, SHUTDOWN_REASON) in r.calls
    ensures forall c :: c in r.calls ==> exists k :: k in t.registry && c == CloseConnection(t.registry[k].connection, SHUTDOWN_REASON)
    ensures r.state.isServer == t.isServer && r.state.queue == t.queue
    ensures r.state.lastDisconnectReason == t.lastDisconnectReason && r.state.listenSocket == t.listenSocket
    ensures Valid(r.state)
  {
    After(t.(registry := map[], pending := map[], client := None, subscribed := false), CloseAll(t.registry, order))
  }

  /** `Shutdown`: a server closes its listen socket; the role drops to
      non-server; then the teardown runs (the C# code defers it by 0.1 s, which
      this model does not represent). */
  function Shutdown(t: Transport, order: seq<U64>): (r: After)
    ensures !r.state.isServer
    ensures r.state.registry == map[] && r.state.pending == map[] && r.state.client.None? && !r.state.subscribed
    ensures t.isServer ==> |r.calls| >= 1 && r.calls[0] == CloseListenSocket(t.listenSocket)
                           && r.calls[1..] == CloseP2PSessions(t, order).calls
    ensures !t.isServer ==> r.calls == CloseP2PSessions(t, order).calls
    ensures r.state.queue == t.queue && r.state.lastDisconnectReason == t.lastDisconnectReason
    ensures r.state.listenSocket == t.listenSocket
    ensures Valid(r.state)
  {
    var closeListen := if t.isServer then [CloseListenSocket(t.listenSocket)] else [];
    var teardown := CloseP2PSessions(t.(isServer := false), order);
    After(teardown.state, closeListen + teardown.calls)
  }
}

=== FILE: poll.dfy ===
/**
 `PollEvent`: drain the status-change queue in arrival order, returning at the
 first notification that is visible outside (Connect or Disconnect); only when
 the queue is empty, look for one received message on the registered
 connections and return it as Data, or return Nothing.

 The socket layer enters as oracles: `accept` is what `AcceptConnection`
 answers for a handle, `receive` is the message (if any) that
 `ReceiveMessagesOnConnection` would hand out for a handle, and `order` is the
 order in which the registry's dictionary enumerates its entries.
 */
module PollEvents {
  import opened SteamTypes
  import opened Framing
  import opened Registry

  /** A Connecting notification (someone asks to connect to us). Only a server
      accepts; a successful accept registers the peer unless an entry already
      exists, which is left untouched. No outward event either way. */
  function OnConnecting(t: Transport, n: StatusChange, accept: ConnHandle -> EResult): (r: After)
    ensures !t.isServer ==> r == After(t, [])
    ensures t.isServer ==> r.calls == [AcceptConnection(n.conn)]
    ensures t.isServer && accept(n.conn) == ResultOK ==> r.state.registry.Keys == t.registry.Keys + {n.remote}
    ensures !(t.isServer && accept(n.conn) == ResultOK) ==> r.state.registry == t.registry
    ensures forall k :: k in t.registry ==> r.state.registry[k] == t.registry[k]
    ensures n.remote in r.state.registry && n.remote !in t.registry ==>
      r.state.registry[n.remote] == ConnectionData(n.remote, n.conn)
    ensures r.state.(registry := t.registry) == t
    ensures Valid(t) ==> Valid(r.state)
  {
    if !t.isServer then After(t, [])
    else if accept(n.conn) != ResultOK || n.remote in t.registry then After(t, [AcceptConnection(n.conn)])
    else After(t.(registry := t.registry[n.remote := ConnectionData(n.remote, n.conn)]), [AcceptConnection(n.conn)])
  }

  /** A Connected notification: the peer's entry now carries the notification's
      handle — a new entry if there was none, otherwise the existing entry
      updated in place (so a shared client record sees the new handle too). */
  function OnConnected(t: Transport, n: StatusChange): (r: Transport)
    ensures n.remote in r.registry && r.registry[n.remote].connection == n.conn
    ensures r.registry.Keys == t.registry.Keys + {n.remote}
    ensures forall k :: k in t.registry && k != n.remote ==> r.registry[k] == t.registry[k]
    ensures n.remote in t.registry ==> r.registry[n.remote].id == t.registry[n.remote].id
    ensures n.remote !in t.registry ==> r.registry[n.remote].id == n.remote
    ensures Valid(t) ==> Valid(r) && r.registry[n.remote] == ConnectionData(n.remote, n.conn)
    ensures r.client.Some? <==> t.client.Some?
    ensures t.client.Some? && t.client.value.shared && t.client.value.data.id == n.remote && n.remote in t.registry ==>
      r.client == Some(ClientRecord(r.registry[n.remote], true))
    ensures !(t.client.Some? && t.client.value.shared && t.client.value.data.id == n.remote && n.remote in t.registry) ==>
      r.client == t.client
    ensures r.(registry := t.registry, client := t.client) == t
  {
    if n.remote !in t.registry then
      t.(registry := t.registry[n.remote := ConnectionData(n.remote, n.conn)])
    else
      var updated := t.registry[n.remote].(connection := n.conn);
      t.(registry := t.registry[n.remote := updated], client := MirrorUpdate(t.client, n.remote, updated))
  }

  /** The client-side disconnect reason for a closing notification: the
      socket layer's end-debug text if it has any, else a message naming the state. */
  function ClosedReason(n: StatusChange): (reason: string)
    ensures |reason| > 0
    ensures |n.endDebug| > 0 ==> reason == n.endDebug
    ensures |n.endDebug| == 0 ==> reason == "Connection closed: " + StateName(n.state)
  {
    if |n.endDebug| > 0 then n.endDebug else "Connection closed: " + StateName(n.state)
  }

  /** A ClosedByPeer or ProblemDetectedLocally notification: the peer's entry
      is removed; a client (not a server) records why. */
  function OnClosed(t: Transport, n: StatusChange): (r: Transport)
    ensures n.remote !in r.registry
    ensures r.registry.Keys == t.registry.Keys - {n.remote}
    ensures forall k :: k in r.registry ==> r.registry[k] == t.registry[k]
    ensures t.isServer ==> r.lastDisconnectReason == t.lastDisconnectReason
    ensures !t.isServer ==> r.lastDisconnectReason == Some(ClosedReason(n))
    ensures r.client.Some? <==> t.client.Some?
    ensures t.client.Some? ==> r.client.value.data == t.client.value.data
    ensures t.client.Some? ==> (r.client.value.shared <==> t.client.value.shared && t.client.value.data.id != n.remote)
    ensures r.(registry := t.registry, client := t.client, lastDisconnectReason := t.lastDisconnectReason) == t
    ensures Valid(t) ==> Valid(r)
  {
    var t' := if t.isServer then t else t.(lastDisconnectReason := Some(ClosedReason(n)));
    RemoveEntry(t', n.remote)
  }

  /** What handling one dequeued notification yields: either the loop goes on
      (with the accept calls made), or it returns the outward event. */
  datatype Step = Continue(state: Transport, calls: seq<SocketCall>) | Emit(state: Transport, event: Polled)

  /** The classification by state inside the loop of `PollEvent`; `t` is the
      state after `n` was dequeued. */
  function Handle(t: Transport, n: StatusChange, accept: ConnHandle -> EResult): (s: Step)
    ensures s.Continue? <==> !n.state.Visible()
    ensures s.Emit? ==> s.event == Polled(if n.state.Connected? then Connect else Disconnect, n.remote, [])
    ensures s.state.queue == t.queue
    ensures s.state.isServer == t.isServer && s.state.pending == t.pending
    ensures s.state.subscribed == t.subscribed && s.state.listenSocket == t.listenSocket
    ensures Valid(t) ==> Valid(s.state)
  {
    if n.state.Connecting? then
      var a := OnConnecting(t, n, accept);
      Continue(a.state, a.calls)
    else if n.state.Connected? then
      Emit(OnConnected(t, n), Polled(Connect, n.remote, []))
    else if n.state.Closed() then
      Emit(OnClosed(t, n), Polled(Disconnect, n.remote, []))
    else
      Continue(t, [])
  }

  /** The outcome of draining the queue: the state, the outward event if one
      was reached (None when the queue ran empty), and the accept calls made. */
  datatype Drained = Drained(state: Transport, event: Option<Polled>, calls: seq<SocketCall>)

  /** The notification-processing loop of `PollEvent`, as a recursion over
      the queue; its properties are stated by `DrainFacts`. */
  function Drain(t: Transport, accept: ConnHandle -> EResult): Drained
    decreases |t.queue|
  {
    if |t.queue| == 0 then Drained(t, None, [])
    else
      match Handle(t.(queue := t.queue[1..]), t.queue[0], accept)
      case Emit(s, e) => Drained(s, Some(e), [])
      case Continue(s, c) =>
        var d := Drain(s, accept);
        Drained(d.state, d.event, c + d.calls)
  }

  /** Draining either runs the queue empty without an event, or stops at a
      Connect or Disconnect with a shorter queue; what is left is always a
      suffix of the queue; the role, the pending reasons, the callback and the
      listen socket are untouched; and the representation invariant is kept. */
  lemma {:induction false} DrainFacts(t: Transport, accept: ConnHandle -> EResult)
    ensures var d := Drain(t, accept);
            && (d.event.None? ==> d.state.queue == [])
            && (d.event.Some? ==> d.event.value.kind in {Connect, Disconnect} && d.event.value.payload == [])
            && (d.event.Some? ==> |d.state.queue| < |t.queue|)
            && |d.state.queue| <= |t.queue| && d.state.queue == t.queue[|t.queue| - |d.state.queue|..]
            && d.state.isServer == t.isServer && d.state.pending == t.pending
            && d.state.subscribed == t.subscribed && d.state.listenSocket == t.listenSocket
            && (Valid(t) ==> Valid(d.state))
    decreases |t.queue|
  {
    if |t.queue| > 0 {
      var rest := t.(queue := t.queue[1..]);
      match Handle(rest, t.queue[0], accept)
      case Emit(s, e) =>
      case Continue(s, c) =>
        DrainFacts(s, accept);
        var d := Drain(s, accept);
        assert t.queue[1..][|s.queue| - |d.state.queue|..] == t.queue[|t.queue| - |d.state.queue|..];
    }
  }

  /** The registered connection under `k` has a message waiting. */
  predicate Ready(registry: map<U64, ConnectionData>, k: U64, receive: ConnHandle -> Option<seq<Byte>>) {
    k in registry && receive(registry[k].connection).Some?
  }

  predicate NoneReady(registry: map<U64, ConnectionData>, order: seq<U64>, receive: ConnHandle -> Option<seq<Byte>>) {
    forall i :: 0 <= i < |order| ==> !Ready(registry, order[i], receive)
  }

  /** `order[i]` is the first id in `order` whose connection has a message. */
  predicate FirstReady(registry: map<U64, ConnectionData>, order: seq<U64>, receive: ConnHandle -> Option<seq<Byte>>, i: int) {
    && 0 <= i < |order|
    && Ready(registry, order[i], receive)
    && NoneReady(registry, order[..i], receive)
  }

  /** The receive pass: visit the registered connections in `order` and take
      one message from the first that has one, stripping its tag byte. */
  function DataPass(registry: map<U64, ConnectionData>, order: seq<U64>, receive: ConnHandle -> Option<seq<Byte>>): (r: Outcome<Polled>)
    decreases |order|
    ensures r.Returned? ==> r.value.kind == Data || r.value.kind == Nothing
    ensures (r.Returned? && r.value.kind == Nothing) <==> NoneReady(registry, order, receive)
    ensures r.Returned? && r.value.kind == Nothing ==> r.value.clientId == 0 && r.value.payload == []
    ensures r.Returned? && r.value.kind == Data ==>
      exists i :: FirstReady(registry, order, receive, i)
        && r.value.clientId == registry[order[i]].id
        && Decode(receive(registry[order[i]].connection).value) == Returned(r.value.payload)
    ensures r.Threw? ==>
      exists i :: FirstReady(registry, order, receive, i) && receive(registry[order[i]].connection).value == []
  {
    if |order| == 0 then Returned(Polled(Nothing, 0, []))
    else if Ready(registry, order[0], receive) then
      var data := registry[order[0]];
      assert FirstReady(registry, order, receive, 0);
      match Decode(receive(data.connection).value)
      case Returned(p) => Returned(Polled(Data, data.id, p))
      case Threw(e) => Threw(e)
    else
      var r := DataPass(registry, order[1..], receive);
      assert forall i :: 0 <= i < |order| - 1 ==> order[1..][i] == order[i + 1];
      assert forall i :: 0 <= i < |order| - 1 ==> order[..i + 1] == [order[0]] + order[1..][..i];
      r
  }

  /** What one `PollEvent` call leaves behind and hands back. A `Threw`
      result is the exception the call raises (an empty received message). */
  datatype PollOutcome = PollOutcome(state: Transport, result: Outcome<Polled>, calls: seq<SocketCall>)

  function PollEvent(t: Transport, accept: ConnHandle -> EResult, order: seq<U64>,
                     receive: ConnHandle -> Option<seq<Byte>>): (r: PollOutcome)
    ensures |r.state.queue| <= |t.queue| && r.state.queue == t.queue[|t.queue| - |r.state.queue|..]
    ensures r.result.Returned? && r.result.value.kind in {Connect, Disconnect} ==>
      |r.state.queue| < |t.queue| && r.result.value.payload == []
    ensures (r.result.Threw? || r.result.value.kind in {Data, Nothing}) ==> r.state.queue == []
    ensures r.result.Returned? && r.result.value.kind == Nothing ==>
      r.result.value.clientId == 0 && r.result.value.payload == [] && NoneReady(r.state.registry, order, receive)
    ensures r.state.isServer == t.isServer && r.state.pending == t.pending
    ensures Valid(t) ==> Valid(r.state)
  {
    DrainFacts(t, accept);
    var d := Drain(t, accept);
    if d.event.Some? then PollOutcome(d.state, Returned(d.event.value), d.calls)
    else PollOutcome(d.state, DataPass(d.state.registry, order, receive), d.calls)
  }

  /** A Data result of a poll is the message of the first connection in
      `order` that has one, after the drain, with its tag byte stripped; an
      exception comes only from such a first message being empty. */
  lemma PollDataFromFirstReady(t: Transport, accept: ConnHandle -> EResult, order: seq<U64>,
                               receive: ConnHandle -> Option<seq<Byte>>)
    ensures var r := PollEvent(t, accept, order, receive);
            && (r.result.Returned? && r.result.value.kind == Data ==>
                  exists i :: FirstReady(r.state.registry, order, receive, i)
                    && r.result.value.clientId == r.state.registry[order[i]].id
                    && Decode(receive(r.state.registry[order[i]].connection).value) == Returned(r.result.value.payload))
            && (r.result.Threw? ==>
                  exists i :: FirstReady(r.state.registry, order, receive, i)
                    && receive(r.state.registry[order[i]].connection).value == [])
  {
    DrainFacts(t, accept);
  }

  /** `order` lists every registered id exactly once, as a dictionary enumeration does. */
  predicate Enumerates(order: seq<U64>, keys: set<U64>) {
    && (forall i :: 0 <= i < |order| ==> order[i] in keys)
    && (forall k :: k in keys ==> k in order)
    && (forall i, j :: 0 <= i < j < |order| ==> order[i] != order[j])
  }

  /** With a real enumeration of the registry, the receive pass returns Nothing
      exactly when no registered connection has a message, and Data only for a
      registered id whose connection had one. */
  lemma DataPassCoversRegistry(t: Transport, order: seq<U64>, receive: ConnHandle -> Option<seq<Byte>>)
    requires Valid(t) && Enumerates(order, t.registry.Keys)
    ensures var r := DataPass(t.registry, order, receive);
            && ((r.Returned? && r.value.kind == Nothing) <==>
                  forall k :: k in t.registry ==> receive(t.registry[k].connection).None?)
            && (r.Returned? && r.value.kind == Data ==>
                  r.value.clientId in t.registry && receive(t.registry[r.value.clientId].connection).Some?)
  {

  }

  /** FIFO: when the first visible notification sits at index `i`, one poll
      dequeues exactly the notifications up to and including it, returns the
      event it describes, and leaves the rest queued. */
  lemma {:induction false} DrainStopsAtFirstVisible(t: Transport, accept: ConnHandle -> EResult, i: nat)
    requires i < |t.queue| && t.queue[i].state.Visible()
    requires forall j :: 0 <= j < i ==> !t.queue[j].state.Visible()
    ensures var d := Drain(t, accept);
            && d.event.Some?
            && d.event.value.clientId == t.queue[i].remote
            && d.event.value.kind == (if t.queue[i].state.Connected? then Connect else Disconnect)
            && d.state.queue == t.queue[i + 1..]
    decreases i
  {
    var n := t.queue[0];
    var rest := t.(queue := t.queue[1..]);
    if i > 0 {
      assert !n.state.Visible();
      forall j | 0 <= j < i - 1
        ensures !t.queue[1..][j].state.Visible()
      {
        assert t.queue[1..][j] == t.queue[j + 1];
      }
      assert t.queue[1..][i - 1] == t.queue[i];
      assert t.queue[1..][i..] == t.queue[i + 1..];
      if n.state.Connecting? {
        var a := OnConnecting(rest, n, accept);
        DrainStopsAtFirstVisible(a.state, accept, i - 1);
      } else {
        DrainStopsAtFirstVisible(rest, accept, i - 1);
      }
    }
  }

  /** The same at the level of `PollEvent`: with the first visible
      notification at index `i`, the poll returns its Connect or Disconnect
      for its peer, with no payload, and exactly the later notifications stay
      queued; the receive pass is not reached. */
  lemma PollStopsAtFirstVisible(t: Transport, accept: ConnHandle -> EResult, order: seq<U64>,
                                receive: ConnHandle -> Option<seq<Byte>>, i: nat)
    requires i < |t.queue| && t.queue[i].state.Visible()
    requires forall j :: 0 <= j < i ==> !t.queue[j].state.Visible()
    ensures var p := PollEvent(t, accept, order, receive);
            && p.result == Returned(Polled(if t.queue[i].state.Connected? then Connect else Disconnect, t.queue[i].remote, []))
            && p.state.queue == t.queue[i + 1..]
  {
    DrainStopsAtFirstVisible(t, accept, i);
    DrainFacts(t, accept);
  }

  /** When no queued notification is visible, one poll drains the whole queue
      without an event; a client (which accepts nothing) keeps its state. */
  lemma {:induction false} DrainWithoutVisible(t: Transport, accept: ConnHandle -> EResult)
    requires forall j :: 0 <= j < |t.queue| ==> !t.queue[j].state.Visible()
    ensures var d := Drain(t, accept);
            && d.event.None? && d.state.queue == []
            && (!t.isServer ==> d.state == t.(queue := []) && d.calls == [])
    decreases |t.queue|
  {
    if |t.queue| > 0 {
      var n := t.queue[0];
      var rest := t.(queue := t.queue[1..]);
      assert forall j :: 0 <= j < |rest.queue| ==> rest.queue[j] == t.queue[j + 1];
      if n.state.Connecting? {
        DrainWithoutVisible(OnConnecting(rest, n, accept).state, accept);
      } else {
        DrainWithoutVisible(rest, accept);
      }
    }
  }

  /** A Connected notification at the head: the poll returns Connect for that
      peer with an empty payload, consumes only that notification, makes no
      socket call, and leaves the peer mapped to the notification's handle. */
  lemma PollConnected(t: Transport, accept: ConnHandle -> EResult, order: seq<U64>,
                      receive: ConnHandle -> Option<seq<Byte>>)
    requires Valid(t) && |t.queue| > 0 && t.queue[0].state.Connected?
    ensures var n := t.queue[0];
            var r := PollEvent(t, accept, order, receive);
            && r.result == Returned(Polled(Connect, n.remote, []))
            && r.state.queue == t.queue[1..] && r.calls == []
            && r.state.registry == t.registry[n.remote := ConnectionData(n.remote, n.conn)]
  {

  }

  /** A ClosedByPeer or ProblemDetectedLocally notification at the head: the
      poll returns Disconnect for that peer, removes its entry, and (client
      role only) records the end-debug text or a message naming the state. */
  lemma PollClosed(t: Transport, accept: ConnHandle -> EResult, order: seq<U64>,
                   receive: ConnHandle -> Option<seq<Byte>>)
    requires |t.queue| > 0 && t.queue[0].state.Closed()
    ensures var n := t.queue[0];
            var r := PollEvent(t, accept, order, receive);
            && r.result == Returned(Polled(Disconnect, n.remote, []))
            && r.state.queue == t.queue[1..] && r.calls == []
            && r.state.registry == t.registry - {n.remote}
            && (t.isServer ==> r.state.lastDisconnectReason == t.lastDisconnectReason)
            && (!t.isServer && |n.endDebug| > 0 ==> r.state.lastDisconnectReason == Some(n.endDebug))
            && (!t.isServer && |n.endDebug| == 0 ==>
                  r.state.lastDisconnectReason == Some("Connection closed: " + StateName(n.state)))
  {

  }

  /** A Connecting notification at the head yields no event: the poll goes on
      with the rest of the queue from the state the accept step left, and that
      step registers the peer only for a server whose accept succeeded and
      which had no entry for the peer yet. */
  lemma PollConnecting(t: Transport, accept: ConnHandle -> EResult, order: seq<U64>,
                       receive: ConnHandle -> Option<seq<Byte>>)
    requires |t.queue| > 0 && t.queue[0].state.Connecting?
    ensures var n := t.queue[0];
            var registered := t.isServer && accept(n.conn) == ResultOK && n.remote !in t.registry;
            var next := t.(queue := t.queue[1..],
                           registry := if registered then t.registry[n.remote := ConnectionData(n.remote, n.conn)]
                                       else t.registry);
            var r := PollEvent(t, accept, order, receive);
            var r' := PollEvent(next, accept, order, receive);
            && r.state == r'.state && r.result == r'.result
            && r.calls == (if t.isServer then [AcceptConnection(n.conn)] else []) + r'.calls
  {

  }

  /** Two Connected notifications for one peer without a disconnect between
      them leave one entry for that peer, carrying the later handle. */
  lemma ConnectedTwice(t: Transport, accept: ConnHandle -> EResult, order: seq<U64>,
                       receive: ConnHandle -> Option<seq<Byte>>, h1: ConnHandle, h2: ConnHandle, peer: U64)
    requires Valid(t) && |t.queue| >= 2
    requires t.queue[0] == StatusChange(peer, Connected, h1, "") && t.queue[1] == StatusChange(peer, Connected, h2, "")
    ensures var r1 := PollEvent(t, accept, order, receive);
            var r2 := PollEvent(r1.state, accept, order, receive);
            && r1.result == Returned(Polled(Connect, peer, [])) && r2.result == Returned(Polled(Connect, peer, []))
            && r2.state.registry.Keys == t.registry.Keys + {peer}
            && r2.state.registry[peer] == ConnectionData(peer, h2)
            && r2.state.queue == t.queue[2..]
  {

  }

  /** The receive pass as the C# code writes it: a loop over the registry
      enumeration that stops at the first connection with a message. */
  method ReceiveLoop(registry: map<U64, ConnectionData>, order: seq<U64>,
                     receive: ConnHandle -> Option<seq<Byte>>) returns (r: Outcome<Polled>)
    ensures r == DataPass(registry, order, receive)
  {
    var i := 0;
    while i < |order|
      invariant 0 <= i <= |order|
      invariant DataPass(registry, order, receive) == DataPass(registry, order[i..], receive)
    {
      var k := order[i];
      if k in registry {
        var msg := receive(registry[k].connection);
        if msg.Some? {
          if |msg.value| == 0 {
            return Threw("OverflowException");
          }
          return Returned(Polled(Data, registry[k].id, msg.value[..|msg.value| - 1]));
        }
      }
      assert order[i..][1..] == order[i + 1..];
      i := i + 1;
    }
    return Returned(Polled(Nothing, 0, []));
  }

  /** One unfolding of `Drain` when the head notification produces an event. */
  lemma DrainEmits(t: Transport, accept: ConnHandle -> EResult, s: Transport, e: Polled)
    requires |t.queue| > 0 && Handle(t.(queue := t.queue[1..]), t.queue[0], accept) == Emit(s, e)
    ensures Drain(t, accept) == Drained(s, Some(e), [])
  {}

  /** What is left to drain from `t`, after the accept calls `calls` were made. */
  function Resume(t: Transport, accept: ConnHandle -> EResult, calls: seq<SocketCall>): Drained
  {
    var d := Drain(t, accept);
    Drained(d.state, d.event, calls + d.calls)
  }

  /** One unfolding of `Drain` when the head notification produces no event:
      draining resumes from the handled state with its accept calls appended. */
  lemma DrainContinues(t: Transport, accept: ConnHandle -> EResult, calls: seq<SocketCall>, s: Transport, c: seq<SocketCall>)
    requires |t.queue| > 0 && Handle(t.(queue := t.queue[1..]), t.queue[0], accept) == Continue(s, c)
    ensures Resume(t, accept, calls) == Resume(s, accept, calls + c)
  {}

  /** An empty queue drains to nothing. */
  lemma DrainEmpty(t: Transport, accept: ConnHandle -> EResult, calls: seq<SocketCall>)
    requires |t.queue| == 0
    ensures Resume(t, accept, calls) == Drained(t, None, calls)
  {}

  /** The dequeue loop as the C# code writes it: take the head, classify it,
      and either return its event or go on with the next notification. */
  method DrainLoop(t: Transport, accept: ConnHandle -> EResult) returns (r: Drained)
    ensures r == Drain(t, accept)
  {
    var cur := t;
    var calls: seq<SocketCall> := [];
    assert Resume(t, accept, []) == Drain(t, accept);
    while |cur.queue| > 0
      invariant Drain(t, accept) == Resume(cur, accept, calls)
      decreases |cur.queue|
    {
      var step := Handle(cur.(queue := cur.queue[1..]), cur.queue[0], accept);
      if step.Emit? {
        DrainEmits(cur, accept, step.state, step.event);
        return Drained(step.state, Some(step.event), calls);
      }
      DrainContinues(cur, accept, calls, step.state, step.calls);
      cur := step.state;
      calls := calls + step.calls;
    }
    DrainEmpty(cur, accept, calls);
    return Drained(cur, None, calls);
  }
}

=== FILE: registry.dfy ===
/**
 The transport's state — role, client record, connection registry,
 pending-disconnect-reason store, status-change queue and last disconnect
 reason — and the operations that only read or edit the registry and the
 reason store: `SetPendingDisconnectReason`, `DisconnectLocalClient`,
 `DisconnectRemoteClient`, `GetCurrentRtt` and the status-change callback.
 */
module Registry {
  import opened SteamTypes

  /** `SteamConnectionData`: a peer's Steam id and its connection handle. */
  datatype ConnectionData = ConnectionData(id: U64, connection: ConnHandle)

  /** The `client` field. In C# it is an object reference, and StartClient
      stores that very object in the registry; `shared` records that the
      registry entry under `data.id` is still that object, so a handle update
      of the entry is also seen through `client`. */
  datatype ClientRecord = ClientRecord(data: ConnectionData, shared: bool)

  datatype Transport = Transport(
    isServer: bool,
    client: Option<ClientRecord>,
    registry: map<U64, ConnectionData>,    // connectionMapping
    pending: map<U64, string>,             // pendingDisconnectReasons
    queue: seq<StatusChange>,              // connectionStatusChangeQueue, head first
    lastDisconnectReason: Option<string>,  // LastDisconnectReason (null is None)
    subscribed: bool,                      // c_onConnectionChange != null
    listenSocket: ListenSocket)

  const DEFAULT_REASON: string := "Disconnected"
  const SHUTDOWN_REASON: string := "Server shutdown"

  /** A freshly constructed transport. */
  function Initial(): (t: Transport)
    ensures Valid(t) && !t.isServer && t.client.None?
    ensures t.registry == map[] && t.pending == map[] && t.queue == []
    ensures t.lastDisconnectReason.None? && !t.subscribed
  {
    Transport(false, None, map[], map[], [], None, false, 0)
  }

  /** The representation invariant: every registry entry is keyed by its own
      Steam id, and a shared client record is exactly the entry under its id. */
  predicate Valid(t: Transport) {
    && (forall k :: k in t.registry ==> t.registry[k].id == k)
    && (t.client.Some? && t.client.value.shared ==>
          t.client.value.data.id in t.registry && t.registry[t.client.value.data.id] == t.client.value.data)
  }

  /** The client record after the registry entry under `id` became `data`:
      a shared client is the same object, so it sees the new handle. */
  function MirrorUpdate(c: Option<ClientRecord>, id: U64, data: ConnectionData): (r: Option<ClientRecord>)
    ensures r.Some? <==> c.Some?
    ensures c.Some? && c.value.shared && c.value.data.id == id ==> r == Some(ClientRecord(data, true))
    ensures !(c.Some? && c.value.shared && c.value.data.id == id) ==> r == c
  {
    if c.Some? && c.value.shared && c.value.data.id == id then Some(ClientRecord(data, true)) else c
  }

  /** The client record after the registry entry under `id` was removed: the
      object survives in `client`, but it is no longer in the registry. */
  function Unshare(c: Option<ClientRecord>, id: U64): (r: Option<ClientRecord>)
    ensures r.Some? <==> c.Some?
    ensures c.Some? ==> r.value.data == c.value.data
    ensures c.Some? ==> (r.value.shared <==> c.value.shared && c.value.data.id != id)
  {
    if c.Some? && c.value.shared && c.value.data.id == id then Some(ClientRecord(c.value.data, false)) else c
  }

  /** Removing one registry entry, with the client record kept consistent:
      the client object itself survives, with its handle. */
  function RemoveEntry(t: Transport, id: U64): (r: Transport)
    ensures r.registry.Keys == t.registry.Keys - {id}
    ensures forall k :: k in r.registry ==> r.registry[k] == t.registry[k]
    ensures r.client.Some? <==> t.client.Some?
    ensures t.client.Some? ==> r.client.value.data == t.client.value.data
    ensures t.client.Some? ==> (r.client.value.shared <==> t.client.value.shared && t.client.value.data.id != id)
    ensures r == t.(registry := r.registry, client := r.client)
    ensures Valid(t) ==> Valid(r)
  {
    t.(registry := t.registry - {id}, client := Unshare(t.client, id))
  }

  /** `pendingDisconnectReasons.GetValueOrDefault(id, "Disconnected")`. */
  function ReasonFor(t: Transport, id: U64): string
  {
    if id in t.pending then t.pending[id] else DEFAULT_REASON
  }

  /** A void operation's result: the new state and the socket-layer calls it made, in order. */
  datatype After = After(state: Transport, calls: seq<SocketCall>)

  /** `OnConnectionStatusChanged`: the callback only appends to the queue. */
  function Enqueue(t: Transport, n: StatusChange): (r: Transport)
    ensures |r.queue| == |t.queue| + 1
    ensures r.queue[..|t.queue|] == t.queue && r.queue[|t.queue|] == n
    ensures r.(queue := t.queue) == t
    ensures Valid(t) ==> Valid(r)
  {
    t.(queue := t.queue + [n])
  }

  /** `SetPendingDisconnectReason`: an invalid Steam id (as judged by the
      Steamworks `CSteamID.IsValid`, passed in as `idIsValid`) or a null or
      empty reason is ignored; otherwise the reason for that id is set,
      replacing any earlier one. */
  function SetPendingDisconnectReason(t: Transport, clientId: U64, idIsValid: bool, reason: Option<string>): (r: Transport)
    ensures idIsValid && reason.Some? && reason.value != "" ==>
      && clientId in r.pending && r.pending[clientId] == reason.value
      && (forall k :: k != clientId ==> (k in r.pending <==> k in t.pending))
      && (forall k :: k in t.pending && k != clientId ==> k in r.pending && r.pending[k] == t.pending[k])
    ensures !(idIsValid && reason.Some? && reason.value != "") ==> r == t
    ensures r.(pending := t.pending) == t
    ensures Valid(t) ==> Valid(r)
  {
    if !idIsValid || reason.None? || reason.value == "" then t
    else t.(pending := t.pending[clientId := reason.value])
  }

  /** `DisconnectLocalClient`: closes the client's own connection with an
      empty reason, drops whatever entry is registered under the client's id,
      and forgets the client. The pending reasons are not consulted. */
  function DisconnectLocalClient(t: Transport): (r: After)
    ensures r.state.client.None?
    ensures t.client.None? ==> r == After(t, [])
    ensures t.client.Some? ==>
      && r.calls == [CloseConnection(t.client.value.data.connection, "")]
      && r.state.registry.Keys == t.registry.Keys - {t.client.value.data.id}
      && (forall k :: k in r.state.registry ==> r.state.registry[k] == t.registry[k])
    ensures r.state.(registry := t.registry, client := t.client) == t
    ensures Valid(t) ==> Valid(r.state)
  {
    match t.client
    case None => After(t, [])
    case Some(c) =>
      After(t.(registry := t.registry - {c.data.id}, client := None),
            [CloseConnection(c.data.connection, "")])
  }

  /** `DisconnectRemoteClient`: a registered client's connection is closed
      with its pending reason (default "Disconnected"), and both the reason and
      the registry entry are removed; for an unregistered id only the pending
      reason is dropped. */
  function DisconnectRemoteClient(t: Transport, clientId: U64): (r: After)
    ensures clientId !in r.state.pending && clientId !in r.state.registry
    ensures r.state.pending == t.pending - {clientId}
    ensures r.state.registry.Keys == t.registry.Keys - {clientId}
    ensures forall k :: k in r.state.registry ==> r.state.registry[k] == t.registry[k]
    ensures clientId in t.registry ==>
      r.calls == [CloseConnection(t.registry[clientId].connection, ReasonFor(t, clientId))]
    ensures clientId !in t.registry ==> r == After(t.(pending := t.pending - {clientId}), [])
    ensures r.state.client.Some? <==> t.client.Some?
    ensures t.client.Some? ==> r.state.client.value.data == t.client.value.data
    ensures t.client.Some? ==>
      (r.state.client.value.shared <==>
         t.client.value.shared && (t.client.value.data.id != clientId || clientId !in t.registry))
    ensures r.state.(registry := t.registry, pending := t.pending, client := t.client) == t
    ensures Valid(t) ==> Valid(r.state)
  {
    if clientId !in t.registry then
      After(t.(pending := t.pending - {clientId}), [])
    else
      var reason := ReasonFor(t, clientId);
      var t' := t.(pending := t.pending - {clientId});
      After(RemoveEntry(t', clientId), [CloseConnection(t.registry[clientId].connection, reason)])
  }

  /** What `GetConnectionRealTimeStatus` reports for a connection. */
  datatype RealTimeStatus = RealTimeStatus(result: EResult, ping: I32)

  /** The unchecked C# cast `(ulong)` of an `int`: negative values wrap modulo 2^64. */
  function ToULong(i: I32): (r: U64)
    ensures (r - i) % U64_MODULUS == 0
    ensures i >= 0 ==> r == i
  {
    if i < 0 then i + U64_MODULUS else i
  }

  /** `GetCurrentRtt`: 0 for an unregistered id or a failed status query,
      otherwise the reported ping converted to `ulong`. The status query is
      the socket layer's, passed in as `status`. */
  function GetCurrentRtt(t: Transport, clientId: U64, status: ConnHandle -> RealTimeStatus): (rtt: U64)
    ensures clientId !in t.registry ==> rtt == 0
    ensures clientId in t.registry && status(t.registry[clientId].connection).result != ResultOK ==> rtt == 0
    ensures clientId in t.registry && status(t.registry[clientId].connection).result == ResultOK ==>
      (rtt - status(t.registry[clientId].connection).ping) % U64_MODULUS == 0
  {
    if clientId !in t.registry then 0
    else
      var s := status(t.registry[clientId].connection);
      if s.result == ResultOK then ToULong(s.ping) else 0
  }

  /** A pending reason is used by exactly one disconnect: the first
      `DisconnectRemoteClient` closes with it, and a repeated call finds the
      client gone, makes no socket call and leaves the state as it was. */
  lemma ReasonConsumedOnce(t: Transport, clientId: U64, reason: string)
    requires clientId in t.registry
    ensures var t1 := SetPendingDisconnectReason(t, clientId, true, Some(reason));
            var first := DisconnectRemoteClient(t1, clientId);
            var second := DisconnectRemoteClient(first.state, clientId);
            && (reason != "" ==> first.calls == [CloseConnection(t.registry[clientId].connection, reason)])
            && (reason == "" ==> first.calls == [CloseConnection(t.registry[clientId].connection, ReasonFor(t, clientId))])
            && clientId !in first.state.pending
            && second == After(first.state, [])
  {

  }
}

=== FILE: scenarios.dfy ===
/**
 Whole-transport runs that chain several operations, as a host would drive
 them: one on the server side and one on the client side.
 */
module Scenarios {
  import opened SteamTypes
  import opened Framing
  import opened Registry
  import opened PollEvents
  import opened Sending
  import opened Lifecycle

  /** A server starts; peer `a` asks to connect and is connected; the first
      poll accepts it and returns Connect for `a`; three bytes sent reliably
      go out tagged with the Reliable ordinal on `a`'s handle; disconnecting
      `a` without a pending reason closes that handle with "Disconnected" and
      removes `a` from the registry. */
  lemma {:induction false} ServerConnectSendDisconnect(listen: ListenSocket, a: U64, h: ConnHandle, payload: seq<Byte>,
                                                       accept: ConnHandle -> EResult, order: seq<U64>,
                                                       receive: ConnHandle -> Option<seq<Byte>>)
    requires accept(h) == ResultOK && a != 0 && |payload| == 3
    ensures var s0 := StartServer(Initial(), listen).state;
            var s1 := Enqueue(Enqueue(s0, StatusChange(a, Connecting, h, "")), StatusChange(a, Connected, h, ""));
            var polled := PollEvent(s1, accept, order, receive);
            var sent := Send(polled.state, a, Segment(Some(payload), 0, 3), Reliable, ResultOK, false);
            var closed := DisconnectRemoteClient(sent.state, a);
            && polled.result == Returned(Polled(Connect, a, []))
            && polled.calls == [AcceptConnection(h)]
            && polled.state.queue == []
            && sent.calls == [SendMessageToConnection(h, payload + [2], SEND_RELIABLE)] && sent.raised.None?
            && closed.calls == [CloseConnection(h, DEFAULT_REASON)]
            && a !in closed.state.registry
  {
    var s0 := StartServer(Initial(), listen).state;
    var s1 := Enqueue(Enqueue(s0, StatusChange(a, Connecting, h, "")), StatusChange(a, Connected, h, ""));
    PollConnecting(s1, accept, order, receive);
    var next := s1.(queue := s1.queue[1..], registry := map[a := ConnectionData(a, h)]);
    PollConnected(next, accept, order, receive);
    var polled := PollEvent(s1, accept, order, receive);
    assert polled.state.registry == map[a := ConnectionData(a, h)];
    assert Segment(Some(payload), 0, 3).Bytes() == payload;
  }

  /** On the client side the client record is the registry entry itself, so
      a Connected notification that updates the entry's handle also updates
      the handle `DisconnectLocalClient` closes. */
  lemma ClientRecordFollowsHandleUpdate(t: Transport, target: U64, h1: ConnHandle, h2: ConnHandle,
                                       accept: ConnHandle -> EResult, order: seq<U64>,
                                       receive: ConnHandle -> Option<seq<Byte>>)
    requires Valid(t) && target !in t.registry && t.queue == []
    ensures var started := StartClient(t, target, Some(h1));
            var queued := Enqueue(started.state, StatusChange(target, Connected, h2, ""));
            var polled := PollEvent(queued, accept, order, receive);
            var left := DisconnectLocalClient(polled.state);
            && started.ok
            && polled.result == Returned(Polled(Connect, target, []))
            && left.calls == [CloseConnection(h2, "")]
            && target !in left.state.registry && left.state.client.None?
  {
    var started := StartClient(t, target, Some(h1));
    var queued := Enqueue(started.state, StatusChange(target, Connected, h2, ""));
    PollConnected(queued, accept, order, receive);
    var polled := PollEvent(queued, accept, order, receive);
    assert polled.state == OnConnected(queued.(queue := []), queued.queue[0]);
    assert polled.state.client == Some(ClientRecord(ConnectionData(target, h2), true));
  }
}

=== FILE: send.dfy ===
/**
 `Send`: frame the payload with its delivery tag, pick the send flag and hand
 the buffer to the socket layer on the registered connection; a
 "no connection" or "invalid parameter" answer means the connection is gone,
 so the pending reason is consumed and the connection closed with it.
 */
module Sending {
  import opened SteamTypes
  import opened Framing
  import opened Registry
  import opened PollEvents

  /** `ArraySegment<byte>`: a window of `count` bytes from `offset` into a
      byte array that may be null (the default segment). */
  datatype Segment = Segment(buffer: Option<seq<Byte>>, offset: nat, count: nat)
  {
    /** What the `ArraySegment` constructor guarantees. */
    predicate WellFormed() {
      match buffer
      case None => offset == 0 && count == 0
      case Some(a) => offset + count <= |a|
    }

    /** The bytes the segment views. */
    function Bytes(): (b: seq<Byte>)
      requires WellFormed() && buffer.Some?
      ensures |b| == count
      ensures forall i :: 0 <= i < count ==> b[i] == buffer.value[offset + i]
    {
      buffer.value[offset..offset + count]
    }
  }

  /** The client id a send goes to: 0 names the server, reached through the
      client record; without a client record there is no target. */
  function Target(t: Transport, clientId: U64): Option<U64>
  {
    if clientId != 0 then Some(clientId)
    else if t.client.None? then None
    else Some(t.client.value.data.id)
  }

  /** The send answers after which the transport treats the connection as lost. */
  predicate ConnectionLost(response: EResult) {
    response == ResultNoConnection || response == ResultInvalidParam
  }

  /** Reading `NetworkManager.Singleton.LogLevel` when there is no network manager. */
  const NULL_REFERENCE: string := "NullReferenceException"

  /** A send's result: the new state, the socket-layer calls made, and the
      exception it raised, if any. */
  datatype Sent = Sent(state: Transport, calls: seq<SocketCall>, raised: Option<string>)

  /** `Send`. `response` is what `SendMessageToConnection` answers, and
      `managerPresent` says whether `NetworkManager.Singleton` exists. The
      error-logging branch for any other failed answer reads the manager's log
      level without a null check, so without a manager it raises. */
  function Send(t: Transport, clientId: U64, segment: Segment, delivery: NetworkDelivery, response: EResult,
                managerPresent: bool): (r: Sent)
    requires segment.WellFormed()
    ensures r.state == t.(pending := r.state.pending, lastDisconnectReason := r.state.lastDisconnectReason)
    ensures segment.buffer.None? ==> r == Sent(t, [], None)
    ensures clientId == 0 && t.client.None? ==> r == Sent(t, [], None)
    ensures clientId != 0 && clientId !in t.registry ==> r == Sent(t, [], None)
    ensures clientId == 0 && t.client.Some? && t.client.value.data.id !in t.registry ==> r == Sent(t, [], None)
    ensures segment.buffer.Some? && Target(t, clientId).Some? && Target(t, clientId).value in t.registry ==>
      var id := Target(t, clientId).value;
      var conn := t.registry[id].connection;
      && |r.calls| >= 1
      && r.calls[0] == SendMessageToConnection(conn, Encode(segment.Bytes(), delivery), SendFlag(delivery))
      && (ConnectionLost(response) ==>
            && r.calls == [r.calls[0], CloseConnection(conn, ReasonFor(t, id))]
            && r.state.pending == t.pending - {id}
            && (id in t.pending ==> r.calls[1].reason == t.pending[id])
            && (id !in t.pending ==> r.calls[1].reason == DEFAULT_REASON)
            && (t.isServer ==> r.state.lastDisconnectReason == t.lastDisconnectReason)
            && (!t.isServer ==> r.state.lastDisconnectReason == Some(r.calls[1].reason)))
      && (!ConnectionLost(response) ==> r.state == t && |r.calls| == 1)
    ensures r.raised.Some? <==>
      && segment.buffer.Some? && Target(t, clientId).Some? && Target(t, clientId).value in t.registry
      && !ConnectionLost(response) && response != ResultOK && !managerPresent
    ensures r.raised.Some? ==> r.raised.value == NULL_REFERENCE
    ensures Valid(t) ==> Valid(r.state)
  {
    if segment.buffer.None? then Sent(t, [], None)
    else
      var target := Target(t, clientId);
      if target.None? || target.value !in t.registry then Sent(t, [], None)
      else
        var id := target.value;
        var conn := t.registry[id].connection;
        var sent := SendMessageToConnection(conn, Encode(segment.Bytes(), delivery), SendFlag(delivery));
        if ConnectionLost(response) then
          var reason := ReasonFor(t, id);
          var t' := t.(pending := t.pending - {id});
          var t'' := if t.isServer then t' else t'.(lastDisconnectReason := Some(reason));
          Sent(t'', [sent, CloseConnection(conn, reason)], None)
        else if response != ResultOK && !managerPresent then
          Sent(t, [sent], Some(NULL_REFERENCE))
        else
          Sent(t, [sent], None)
  }

  /** End to end: the buffer one side sends, when the other side's receive
      pass picks it up from a registered connection, comes out as a Data event
      carrying exactly the sent bytes — for every payload and delivery mode. */
  lemma SendThenReceive(sender: Transport, clientId: U64, segment: Segment, delivery: NetworkDelivery,
                        response: EResult, managerPresent: bool, receiver: Transport, peer: U64,
                        receive: ConnHandle -> Option<seq<Byte>>)
    requires segment.WellFormed() && segment.buffer.Some?
    requires Target(sender, clientId).Some? && Target(sender, clientId).value in sender.registry
    requires Valid(receiver) && peer in receiver.registry
    requires var r := Send(sender, clientId, segment, delivery, response, managerPresent);
             receive(receiver.registry[peer].connection) == Some(r.calls[0].data)
    ensures DataPass(receiver.registry, [peer], receive) == Returned(Polled(Data, peer, segment.Bytes()))
  {

  }
}

=== FILE: types.dfy ===
/**
 The value types shared by the Steam networking-sockets transport model: the
 fixed-width integers of the C# code, the Steamworks enumerations the core
 branches on, the status-change notification, the outward Netcode event and the
 record of every call the core makes into the socket layer.
 */
module SteamTypes {

  const U64_MODULUS: int := 0x1_0000_0000_0000_0000

  /** C# `ulong`: client ids and 64-bit Steam ids. */
  type U64 = x: int | 0 <= x < 0x1_0000_0000_0000_0000

  /** C# `uint`: the value behind `HSteamNetConnection` and `HSteamListenSocket`. */
  type U32 = x: int | 0 <= x < 0x1_0000_0000

  /** C# `int`. */
  type I32 = x: int | -0x8000_0000 <= x < 0x8000_0000

  type Byte = x: int | 0 <= x < 256

  /** Opaque handle of one live or pending connection in the socket layer. */
  type ConnHandle = U32

  /** Opaque handle of the listen socket in the socket layer. */
  type ListenSocket = U32

  datatype Option<T> = None | Some(value: T)

  /** The result of a C# call that either returns a value or raises an exception. */
  datatype Outcome<T> = Returned(value: T) | Threw(exception: string)

  /** `EResult`: the three codes the core tells apart, and everything else. */
  datatype EResult = ResultOK | ResultNoConnection | ResultInvalidParam | ResultOther

  /** `ESteamNetworkingConnectionState`. */
  datatype ConnectionState =
    | StateNone | Connecting | FindingRoute | Connected
    | ClosedByPeer | ProblemDetectedLocally | FinWait | Linger | Dead
  {
    /** The states the poll cycle turns into an outward event. */
    predicate Visible() {
      Connected? || ClosedByPeer? || ProblemDetectedLocally?
    }

    predicate Closed() {
      ClosedByPeer? || ProblemDetectedLocally?
    }
  }

  /** How C# string interpolation renders a connection state: its enumerator name. */
  function StateName(s: ConnectionState): string {
    match s
    case StateNone => "k_ESteamNetworkingConnectionState_None"
    case Connecting => "k_ESteamNetworkingConnectionState_Connecting"
    case FindingRoute => "k_ESteamNetworkingConnectionState_FindingRoute"
    case Connected => "k_ESteamNetworkingConnectionState_Connected"
    case ClosedByPeer => "k_ESteamNetworkingConnectionState_ClosedByPeer"
    case ProblemDetectedLocally => "k_ESteamNetworkingConnectionState_ProblemDetectedLocally"
    case FinWait => "k_ESteamNetworkingConnectionState_FinWait"
    case Linger => "k_ESteamNetworkingConnectionState_Linger"
    case Dead => "k_ESteamNetworkingConnectionState_Dead"
  }

  /** Netcode's `NetworkDelivery`, in declaration order. */
  datatype NetworkDelivery =
    | Unreliable | UnreliableSequenced | Reliable | ReliableSequenced | ReliableFragmentedSequenced
  {
    predicate IsReliable() {
      Reliable? || ReliableSequenced? || ReliableFragmentedSequenced?
    }

    /** The two modes the transport sends without Nagle coalescing. */
    predicate IsSequencedNoCoalesce() {
      ReliableSequenced? || UnreliableSequenced?
    }
  }

  /** `(int)delivery`, the enumerator's ordinal. */
  function Ordinal(d: NetworkDelivery): Byte {
    match d
    case Unreliable => 0
    case UnreliableSequenced => 1
    case Reliable => 2
    case ReliableSequenced => 3
    case ReliableFragmentedSequenced => 4
  }

  /** One `SteamNetConnectionStatusChangedCallback_t`, reduced to the fields the core reads. */
  datatype StatusChange = StatusChange(
    remote: U64,               // m_info.m_identityRemote's 64-bit Steam id
    state: ConnectionState,    // m_info.m_eState
    conn: ConnHandle,          // m_hConn
    endDebug: string)          // m_info.m_szEndDebug

  /** Netcode's `NetworkEvent` members that this transport produces. */
  datatype NetworkEvent = Data | Connect | Disconnect | Nothing

  /** What one `PollEvent` call hands back through its return value and out-parameters. */
  datatype Polled = Polled(kind: NetworkEvent, clientId: U64, payload: seq<Byte>)

  /** A call the core makes into the socket layer that changes something there. */
  datatype SocketCall =
    | AcceptConnection(conn: ConnHandle)
    | CloseConnection(conn: ConnHandle, reason: string)
    | SendMessageToConnection(conn: ConnHandle, data: seq<Byte>, flags: int)
    | ConnectP2P(target: U64)
    | CreateListenSocketP2P
    | CloseListenSocket(socket: ListenSocket)
}
